=== FILE: README.md ===
# meema-server core in Dafny

A model of the core of meema-server, a small storage service for credentials and
key-value data. A client registers an account under a hardware ID and a password.
It can then store and fetch one JSON blob per URL under that account, and every
read and write re-checks the password.

The model has four parts:

- **Validation**: `argCheck`, the request-schema validator. Request bodies and schemas
  are sequences of members in `for ... in` enumeration order. This makes "the first
  violation wins" a deterministic statement. `ArgCheck` is a function on values, so it
  cannot change either of its inputs.
- **Accounts**: the salted password hash, the credential check and registration.
- **Records**: the authenticated upsert (`PUT /:hardware_id/:url`) and the
  authenticated lookup (`POST /:hardware_id/:url`).
- **Routes**: the three handlers as transitions over two in-memory collections,
  `accounts` and `passwords`. The module also has a request-trace function and the
  store invariant, proved for every trace.

Each request yields one `Step` (`Routes.Handle`): the first response its handler sends,
plus the store after the request. Files:

- `wrappers.dfy`: `Option`.
- `json.dfy`: JSON values, `typeof` and property lookup.
- `validation.dfy`: `argCheck` and its properties.
- `store.dfy`: documents, and query, insert and upsert on them.
- `http.dfy`: responses and the service's fixed messages.
- `accounts.dfy`, `records.dfy`, `routes.dfy`: the three parts listed above.
- `scenario.dfy`: concrete sessions.
- `findings.dfy`: the handlers' double responses, as written.

The digest (SHA-512 in hex) is a parameter `hash: string -> string`. The random salt
is a parameter of registration. Properties that need the digest to be collision-free
assume `Injective(hash)`.

The hardware-ID format check `/^.*$/` (marked `// TODO: anything legitimate` in the
code) has no `m` flag. It therefore accepts every string without a line terminator,
**including the empty string**. `Accounts.SingleLine` models exactly that.

## Model

| member | source | states |
|---|---|---|
| `Json.TypeOf` | serv.js:155-163 | `typeof` of a JSON value; `null`, arrays and objects all give "object", and each other kind has its own name |
| `Json.Lookup` | serv.js:166 | `obj[k]` is defined exactly when `k in obj`, and its value is that of a member named `k` |
| `Validation.FirstArgViolation` | serv.js:151-164 | the first pass stops at the first field that is extra or mistyped; every earlier field is fine |
| `Validation.FirstMissing` | serv.js:165-169 | the second pass stops at the first schema field that is absent and not an optional descriptor; every earlier one is present or optional |
| `Validation.ArgCheck` | serv.js:150-171 | `{valid: true}` (no error) exactly when no field is extra or mistyped and no required field is missing; otherwise the error is the message of a real violation |
| `ValidationFacts.MessageInjective` | serv.js:153-167 | the three error messages never coincide; a message determines both the kind of violation and the field it names |
| `ValidationFacts.ExtraFieldReported` | serv.js:151-154 | a field with no truthy schema entry, reached before any other bad field, is reported as an extra field by name, even when required fields are also missing |
| `ValidationFacts.WrongTypeReported` | serv.js:155-163 | a field whose `typeof` differs from the plain type name or the descriptor's `.type`, reached first, is reported as the wrong type by name |
| `ValidationFacts.ArgPassComesFirst` | serv.js:151-168 | when any field is extra or mistyped, the result is invalid and is never a missing-field message |
| `ValidationFacts.MissingFieldReported` | serv.js:165-168 | when all fields are well formed, the first absent required schema field is reported as missing by name |
| `ValidationFacts.ArgCheckValidIff` | serv.js:150-171 | the validator returns `{valid: true}` exactly when the body has no extra field, no mistyped field and no absent required field, each stated independently of the two passes |
| `ValidationFacts.OptionalNeverMissing` | serv.js:166 | a descriptor field with `optional` set is never reported missing |
| `ValidationFacts.ValidHasDeclaredField` | serv.js:165-170 | an accepted body has every field that the schema declares with a plain type, and that field has the declared `typeof` |
| `Store.Select` | serv.js:36-38 | a query returns exactly the documents whose key equals the filter. Each match appears as many times as it is stored, so the result's length counts the matches |
| `Store.SelectTwo` | serv.js:78 | two documents with the key make a query return at least two results |
| `Store.SelectNone` | serv.js:40 | a query for a key that no document has returns nothing |
| `Store.SelectUnique` | serv.js:120-123 | in a collection with unique keys, a query for a stored document's key returns exactly that document |
| `Store.SelectAtMostOne` | serv.js:126 | in a collection with unique keys, a query returns at most one document |
| `Store.Insert` | serv.js:48-52 | an insert appends the document and keeps every earlier document in place |
| `Store.Upsert` | serv.js:82-91 | an upsert keeps every key in place and leaves records with other keys untouched; the first record with the key holds the new `info`, which replaces the old one rather than merging; it appends only when no record had the key |
| `Store.UpsertKeepsUnique` | serv.js:82-91 | an upsert never creates a second record for a key |
| `Store.UpsertReadBack` | serv.js:82-91 | after an upsert, a query for its key returns exactly one record, holding the value put |
| `Store.UpsertFrame` | serv.js:82-85 | an upsert does not change the result of a query for any other key |
| `Validation.ArgViolation` | serv.js:152-163 | a field's first-pass verdict names that field and is never "missing". It is "extra" exactly when the schema entry is falsy, and clean exactly when the entry is truthy and the field's `typeof` equals the declared type |
| `Validation.MissingAt` | serv.js:166 | a schema field counts as missing only when the body has no such key. An optional descriptor field is never missing. Every other absent field is: one declared with a plain type, and a descriptor whose `optional` is unset |
| `Accounts.SaltHash` | serv.js:137-142 | the digest of the password followed by the salt. With a collision-free digest, no other password gives the same hash under that salt |
| `Accounts.SingleLine` | serv.js:31 | `/^.*$/` matches the empty string and every string without `\n`, `\r`, U+2028 or U+2029. It fails on any string that contains one of them |
| `Accounts.CredentialsValid` | serv.js:78 | the check passes only if exactly one account has the hardware ID and the password, salted with that account's salt, hashes to its stored hash; it fails when no account has the ID |
| `Accounts.Register` | serv.js:31-52 | a hardware ID with a line terminator is rejected; an ID that already has an account is rejected as a duplicate; either way the store is unchanged. Otherwise exactly one account `{hw, H(password ++ salt), salt}` is appended, and uniqueness of hardware IDs is kept |
| `AccountFacts.CredentialsValidIff` | serv.js:78 | with unique hardware IDs, the check passes exactly when some account has the ID and the salted password matches its hash |
| `AccountFacts.AmbiguousAccountRejected` | serv.js:78 | two accounts stored with the same hardware ID make every credential check for that ID fail, whatever the password |
| `AccountFacts.RegisterThenVerify` | serv.js:45-52 | after a successful registration, the new account is the only one with its ID, and the credential check passes with the registered password |
| `AccountFacts.RegisterTwice` | serv.js:36-43 | registering the same ID again fails with "An account already exists…", leaves the store unchanged, and the store still holds exactly one account for the ID |
| `AccountFacts.WrongPasswordRejected` | serv.js:137-142 | with a collision-free digest, any other password fails the check for a freshly registered account |
| `Records.Put` | serv.js:74-91 | the write succeeds exactly when the credentials pass, and it never touches `accounts`. On a failure it answers "Invalid credentials." and leaves the store unchanged. It keeps records unique per (hardware ID, URL) |
| `Records.Get` | serv.js:112-129 | a bad password gives "Invalid credentials."; otherwise the read succeeds exactly when one record matches, and it returns that record's `info`; zero or several matches give "Invalid URL." |
| `RecordFacts.GetFindsStoredRecord` | serv.js:120-129 | with unique records and valid credentials, a lookup returns the stored blob of the matching record |
| `RecordFacts.GetUnknownIsInvalidUrl` | serv.js:126-127 | with valid credentials and no record for the key, a lookup answers "Invalid URL." and yields no data |
| `RecordFacts.PutThenGet` | serv.js:86-88 | a stored record reads back as the last value put |
| `RecordFacts.PutReplaces` | serv.js:85-89 | a second put replaces the first blob, with no merging |
| `RecordFacts.PutFrame` | serv.js:82-85 | a put changes nothing a lookup of another (hardware ID, URL) can see |
| `Routes.NewAccount` | serv.js:20-34 | a body that fails validation gets 400 with the validator's message and leaves the store unchanged; a valid body has string `hardware_id` and `password` and is registered; record storage is untouched; the store invariant is kept |
| `Routes.PutRoute` | serv.js:63-72 | a body that fails validation gets 400 with the validator's message; a valid body has a string `password` and a `store` whose `typeof` is "object", and is put; accounts are untouched; the store invariant is kept |
| `Routes.LookupRoute` | serv.js:102-110 | a body that fails validation gets 400 with the validator's message; a valid body has a string `password` and is looked up |
| `Routes.Handle` | serv.js:20-135 | every request keeps at most one account per hardware ID and one record per key; a lookup changes nothing; registration never touches records; a put never touches accounts |
| `Routes.RunKeepsConsistent` | serv.js:40-52 | any sequence of requests keeps at most one account per hardware ID and at most one record per (hardware ID, URL) |
| `Routes.RunOnlyAddsAccounts` | serv.js:48-52 | accounts are never changed or removed; a sequence of requests only appends to them |
| `Scenario.EndToEnd` | serv.js:20-135 | in an empty store: register dev1/pw, store `{k: "v"}` for site1, and read it back; a read with a wrong password is refused with "Invalid credentials." |
| `Scenario.ExtraBeforeMissing` | serv.js:151-168 | a registration body with an extra `pin` and no `password` is reported for the extra `pin` |
| `Scenario.MissingPassword` | serv.js:165-168 | a registration body without `password` is reported as missing it |
| `Scenario.NullAndArrayAreObjects` | serv.js:155-163 | a put body whose `store` is `null` or an array passes validation |
| `Findings.RegisterSendsAsWritten` | serv.js:40-55 | as written, a duplicate registration sends 400 and then 200; its first send is the modelled response |
| `Findings.PutSendsAsWritten` | serv.js:78-94 | as written, a put with bad credentials sends 400 and then 200; its first send is the modelled response |
| `Findings.LookupSendsAsWritten` | serv.js:116-134 | as written, every failed lookup sends exactly twice and only a success sends once; its first send is the modelled response; with bad credentials the sends are 400 "Invalid credentials." and then 500 |
| `Findings.LookupBadCredentialsSendsTwice` | serv.js:116-126 | as written, a lookup with bad credentials sends "Invalid credentials." and then, failing on `data.length`, reaches the 500 path; the corrected `Get` answers once |
| `Findings.LookupUnknownSendsTwice` | serv.js:126-134 | as written, a lookup of an unknown URL with valid credentials sends "Invalid URL." and then reaches the 500 path; the corrected `Get` answers once |

## Left out

- HTTP plumbing is not modelled. This covers Express routing, `http.listen`, the `nconf` port lookup, the JSON body parser and static file serving (serv.js:3-18, 173). Handlers take the parsed body and the path parameters directly. Route precedence between `POST /account/new` and `POST /:hardware_id/:url` is not modelled.
- The `./db` and `./logger` modules are not part of this model. The store is two in-memory sequences. `query` is an equality filter, `insert` appends, and `update` with `upsert: true` replaces the `info` of the first matching record or appends one. Logging is dropped.
- The `.catch` → 500 paths (serv.js:57-60, 96-99, 131-134) are not modelled. Storage failures and exceptions belong to the storage layer and the runtime, not to the domain logic. `Findings` uses the 500 response only to list the sends reached as written.
- SHA-512 and `crypto.randomBytes(8).toString("base64")` are foreign calls (serv.js:45, 137-142). The digest is the parameter `hash`, and the salt is a parameter of `Register`. The 12-character shape of the salt is not modelled.
- `AccountFacts.WrongPasswordRejected` assumes a collision-free digest (`Injective(hash)`), and that assumption covers two gaps. First, SHA-512 is collision-free only with overwhelming probability. Second, model strings are sequences of Unicode scalar values, while JavaScript strings are UTF-16 code units and `JSON.parse` can produce a lone surrogate (`"\ud800"`). `hash.update` (serv.js:139) encodes its input as UTF-8 and turns each lone surrogate into U+FFFD. So the real `hash` is SHA-512 over that encoding and is injective only on well-formed strings: in the source, a password `"\ud800"` and a password `"\ufffd"` hash alike. Lone surrogates are not modelled.
- Concurrency is not modelled. `Routes.Run` handles requests one at a time. Two interleaved registrations of one hardware ID could both pass the duplicate check before either insert. The source relies on the storage layer to prevent that.
- JSON numbers are integers, so floating point is not modelled. Only `typeof` of a value matters to the core.
- The integer-like keys that JavaScript enumerates first are not modelled. An object is its members in enumeration order, and nothing reorders them.
- Prototype-chain lookups (`type["constructor"]` and the like) are not modelled. A key is in a schema only if the schema lists it.
- A request body that repeats a key is not modelled. The model assumes the keys of a parsed body are distinct. `Lookup` takes the first member with a key, whereas `JSON.parse` keeps the last value.
- A schema whose literal repeats a key is not modelled. The lookup uses the first entry, but in JavaScript the last one wins. None of the three schemas repeats a key.
- The double responses of the handlers (serv.js:41-43 → 55, 79-81 → 94, 117-119 → 126, 127-129) are kept out of `Register`, `Put` and `Get`, which yield only the first response. They are recorded under "Findings". What Express does with a second `send` is not modelled.
- How Express encodes a stored `info` that is `null` in a 200 body is not modelled. `Payload.Body` carries the JSON value as stored.

## Findings

| source | as written | input that shows it | evidently intended | confidence | as-written member | corrected member |
|---|---|---|---|---|---|---|
| serv.js:126-129 | after sending 400 "Invalid URL." the continuation goes on to read `data[0].info`; with no match this throws, and `.catch` sends 500 as a second response (the credential branch at 116-119 falls through the same way) | valid credentials and a URL never stored | return right after the 400 | high; not executed | `Findings.LookupSendsAsWritten`, `Findings.LookupUnknownSendsTwice`, `Findings.LookupBadCredentialsSendsTwice` | `Records.Get` |
| serv.js:40-43 | the duplicate branch returns `undefined` to the next continuation, which sends 200 after the 400 | a hardware ID that is already registered | the request ends with the 400 | high; not executed | `Findings.RegisterSendsAsWritten` | `Accounts.Register` |
| serv.js:78-81 | the bad-credentials branch returns `undefined` to the next continuation, which sends 200 after the 400 | a wrong password for an existing account | the request ends with the 400 | high; not executed | `Findings.PutSendsAsWritten` | `Records.Put` |

=== FILE: accounts.dfy ===
/**
 This module models the account side of the service: the salted password hash,
 the credential check that guards every record operation, and registration
 (the decision logic of `POST /account/new` after validation).
 */
module Accounts {
  import opened Store
  import opened Http

  /** The digest function, SHA-512 rendered as hex in the service. It is a
      parameter of the model: only its determinism matters here. */
  type Hash = string -> string

  /** `saltHash(password, salt)`: the digest of the password followed by the salt.
      With a collision-free digest, the stored hash pins down the password for
      its salt. */
  function SaltHash(hash: Hash, password: string, salt: string): (h: string)
    ensures Injective(hash) ==> forall p :: hash(p + salt) == h ==> p == password
  {
    SuffixCancelsAll(password, salt);
    hash(password + salt)
  }

  /** Two passwords salted with the same salt give the same hash input only if
      they are equal. */
  lemma SuffixCancels(a: string, b: string, s: string)
    ensures a + s == b + s ==> a == b
  {
    if a + s == b + s {
      assert a == (a + s)[..|a|];
      assert b == (b + s)[..|b|];
    }
  }

  /** No other password, salted with `salt`, gives the same hash input. */
  lemma SuffixCancelsAll(password: string, salt: string)
    ensures forall p :: p + salt == password + salt ==> p == password
  {
    forall p | p + salt == password + salt ensures p == password {
      SuffixCancels(p, password, salt);
    }
  }

  /** A digest that never maps two different inputs to the same output. */
  ghost predicate Injective(hash: Hash) {
    forall x, y :: hash(x) == hash(y) ==> x == y
  }

  /** The characters `.` does not match in an ECMAScript regular expression. */
  const LineTerminators: set<char> := {'\n', '\r', '\U{2028}', '\U{2029}'}

  /** `s.match(/^.*$/)` succeeds: without the `m` flag the pattern matches exactly
      the strings, the empty one included, that contain no line terminator. */
  predicate SingleLine(s: string): (ok: bool)
    ensures |s| == 0 ==> ok
    ensures (forall i :: 0 <= i < |s| ==> s[i] != '\n' && s[i] != '\r' && s[i] != '\U{2028}' && s[i] != '\U{2029}') ==> ok
    ensures forall i :: 0 <= i < |s| && (s[i] == '\n' || s[i] == '\r' || s[i] == '\U{2028}' || s[i] == '\U{2029}') ==> !ok
  {
    forall i :: 0 <= i < |s| ==> s[i] !in LineTerminators
  }

  /** The credential check of the record handlers: exactly one account has the
      hardware ID, and the password salted with its salt hashes to its stored hash. */
  function CredentialsValid(accounts: seq<Account>, hw: string, password: string, hash: Hash): (ok: bool)
    ensures ok ==> |Select(accounts, AccountKey, hw)| == 1
    ensures ok ==> exists a :: a in accounts && a.hardwareId == hw && SaltHash(hash, password, a.salt) == a.password
    ensures (forall a :: a in accounts ==> a.hardwareId != hw) ==> !ok
  {
    var data := Select(accounts, AccountKey, hw);
    !(|data| != 1 || SaltHash(hash, password, data[0].salt) != data[0].password)
  }

  /** Registration of `hw` with `password`, given the freshly generated `salt`. */
  function Register(db: Db, hw: string, password: string, salt: string, hash: Hash): (r: Step)
    ensures r.db.passwords == db.passwords
    ensures r.response.status == 200 <==> SingleLine(hw) && forall a :: a in db.accounts ==> a.hardwareId != hw
    ensures r.response.status == 200 ==>
              r.response == Ok(NoBody)
              && r.db.accounts == db.accounts + [Account(hw, SaltHash(hash, password, salt), salt)]
    ensures r.response.status != 200 ==> r.db == db
    ensures !SingleLine(hw) ==> r.response == BadRequest(BadHardwareIdMessage)
    ensures SingleLine(hw) && (exists a :: a in db.accounts && a.hardwareId == hw) ==>
              r.response == BadRequest(DuplicateAccountMessage)
    ensures Unique(db.accounts, AccountKey) ==> Unique(r.db.accounts, AccountKey)
  {
    if !SingleLine(hw) then Step(BadRequest(BadHardwareIdMessage), db)
    else
      var data := Select(db.accounts, AccountKey, hw);
      if |data| > 0 then
        assert data[0] in db.accounts;
        Step(BadRequest(DuplicateAccountMessage), db)
      else
        var account := Account(hw, SaltHash(hash, password, salt), salt);
        Step(Ok(NoBody), db.(accounts := Insert(db.accounts, account)))
  }
}

/** Properties of registration and of the credential check. */
module AccountFacts {
  import opened Store
  import opened Http
  import opened Accounts

  /** With at most one account per hardware ID, the credential check succeeds
      exactly when some account has that ID and the salted password hashes to
      its stored hash. */
  lemma CredentialsValidIff(accounts: seq<Account>, hw: string, password: string, hash: Hash)
    requires Unique(accounts, AccountKey)
    ensures CredentialsValid(accounts, hw, password, hash) <==>
              exists i :: 0 <= i < |accounts| && accounts[i].hardwareId == hw
                          && SaltHash(hash, password, accounts[i].salt) == accounts[i].password
  {
    if i :| 0 <= i < |accounts| && accounts[i].hardwareId == hw
            && SaltHash(hash, password, accounts[i].salt) == accounts[i].password {
      SelectUnique(accounts, AccountKey, i);
    }
  }

  /** Two accounts with the same hardware ID make every credential check for
      that ID fail, whatever the password. */
  lemma AmbiguousAccountRejected(accounts: seq<Account>, hw: string, password: string, hash: Hash, i: nat, j: nat)
    requires i < j < |accounts| && accounts[i].hardwareId == hw && accounts[j].hardwareId == hw
    ensures !CredentialsValid(accounts, hw, password, hash)
  {
    SelectTwo(accounts, AccountKey, hw, i, j);
  }

  /** After a successful registration the new account is the only one for its
      hardware ID, and the password it was registered with passes the check. */
  lemma RegisterThenVerify(db: Db, hw: string, password: string, salt: string, hash: Hash)
    requires Register(db, hw, password, salt, hash).response.status == 200
    ensures Select(Register(db, hw, password, salt, hash).db.accounts, AccountKey, hw)
              == [Account(hw, SaltHash(hash, password, salt), salt)]
    ensures CredentialsValid(Register(db, hw, password, salt, hash).db.accounts, hw, password, hash)
  {
    var accounts := Register(db, hw, password, salt, hash).db.accounts;
    var n := |db.accounts|;
    forall l | 0 <= l < n ensures AccountKey(accounts[l]) != hw {
      assert accounts[l] == db.accounts[l];
      assert db.accounts[l] in db.accounts;
    }
    SelectNone(db.accounts, AccountKey, hw);
    SelectAppend(db.accounts, accounts[n], hw);
  }

  /** A query over a collection with one document appended. */
  lemma {:induction false} SelectAppend(docs: seq<Account>, d: Account, k: string)
    ensures Select(docs + [d], AccountKey, k)
              == Select(docs, AccountKey, k) + (if d.hardwareId == k then [d] else [])
  {
    if docs == [] {
      assert [d][1..] == [];
    } else {
      assert (docs + [d])[1..] == docs[1..] + [d];
      SelectAppend(docs[1..], d, k);
    }
  }

  /** Registering a hardware ID a second time fails as a duplicate, leaves the
      store as it was, and the store still holds exactly one account for it. */
  lemma RegisterTwice(db: Db, hw: string, pw1: string, salt1: string, pw2: string, salt2: string, hash: Hash)
    requires Register(db, hw, pw1, salt1, hash).response.status == 200
    ensures var db1 := Register(db, hw, pw1, salt1, hash).db;
            && Register(db1, hw, pw2, salt2, hash) == Step(BadRequest(DuplicateAccountMessage), db1)
            && |Select(db1.accounts, AccountKey, hw)| == 1
  {
    RegisterThenVerify(db, hw, pw1, salt1, hash);
    var db1 := Register(db, hw, pw1, salt1, hash).db;
    assert db1.accounts[|db.accounts|] in db1.accounts;
  }

  /** With an injective digest, any password other than the registered one is
      rejected by the credential check. */
  lemma WrongPasswordRejected(db: Db, hw: string, password: string, other: string, salt: string, hash: Hash)
    requires Injective(hash)
    requires Register(db, hw, password, salt, hash).response.status == 200
    requires other != password
    ensures !CredentialsValid(Register(db, hw, password, salt, hash).db.accounts, hw, other, hash)
  {
  }
}

=== FILE: findings.dfy ===
/**
 The handlers as written do not stop after an error response inside a promise
 continuation: `return;` only leaves the current continuation, so the next
 `.then` still runs and sends again. These functions list the responses each
 handler's code reaches, assuming every `send` returns normally; a property
 read on `undefined` throws and lands in `.catch`, which sends a 500. The rest
 of the model keeps only the first response (`Accounts.Register`,
 `Records.Put`, `Records.Get`), and each as-written sequence starts with it.
 */
module Findings {
  import opened Json
  import opened Store
  import opened Http
  import opened Accounts
  import opened Records

  /** The sends of `POST /account/new` after validation, as written. */
  function RegisterSendsAsWritten(db: Db, hw: string, password: string, salt: string, hash: Hash): (sends: seq<Response>)
    ensures sends != [] && sends[0] == Register(db, hw, password, salt, hash).response
    ensures SingleLine(hw) && (exists a :: a in db.accounts && a.hardwareId == hw) ==>
              sends == [BadRequest(DuplicateAccountMessage), Ok(NoBody)]
  {
    if !SingleLine(hw) then [BadRequest(BadHardwareIdMessage)]
    else if |Select(db.accounts, AccountKey, hw)| > 0 then
      // the duplicate branch returns `undefined` to the next continuation, which sends 200
      [BadRequest(DuplicateAccountMessage), Ok(NoBody)]
    else [Ok(NoBody)]
  }

  /** The sends of `PUT /:hardware_id/:url` after validation, as written. */
  function PutSendsAsWritten(db: Db, hw: string, url: string, password: string, info: Json, hash: Hash): (sends: seq<Response>)
    ensures sends != [] && sends[0] == Put(db, hw, url, password, info, hash).response
    ensures !CredentialsValid(db.accounts, hw, password, hash) ==>
              sends == [BadRequest(InvalidCredentialsMessage), Ok(NoBody)]
  {
    if !CredentialsValid(db.accounts, hw, password, hash) then
      [BadRequest(InvalidCredentialsMessage), Ok(NoBody)]
    else [Ok(NoBody)]
  }

  /** The sends of `POST /:hardware_id/:url` after validation, as written. */
  function LookupSendsAsWritten(db: Db, hw: string, url: string, password: string, hash: Hash): (sends: seq<Response>)
    ensures sends != [] && sends[0] == Get(db, hw, url, password, hash)
    ensures |sends| == 1 <==> Get(db, hw, url, password, hash).status == 200
    ensures Get(db, hw, url, password, hash).status != 200 ==> |sends| == 2
    ensures !CredentialsValid(db.accounts, hw, password, hash) ==>
              sends == [BadRequest(InvalidCredentialsMessage), InternalError]
  {
    if !CredentialsValid(db.accounts, hw, password, hash) then
      // the next continuation reads `data.length` of `undefined`
      [BadRequest(InvalidCredentialsMessage), InternalError]
    else
      var data := Select(db.passwords, RecordKey, (hw, url));
      if |data| == 1 then [Ok(Body(data[0].info))]
      // without a `return`, `data[0].info` is read next
      else if |data| == 0 then [BadRequest(InvalidUrlMessage), InternalError]
      else [BadRequest(InvalidUrlMessage), Ok(Body(data[0].info))]
  }

  /** A lookup with bad credentials: the handler as written answers "Invalid
      credentials." and then fails on `data.length`, reaching the 500 path,
      while the corrected `Get` answers once. */
  lemma LookupBadCredentialsSendsTwice(db: Db, hw: string, url: string, password: string, hash: Hash)
    requires !CredentialsValid(db.accounts, hw, password, hash)
    ensures LookupSendsAsWritten(db, hw, url, password, hash) == [BadRequest(InvalidCredentialsMessage), InternalError]
    ensures Get(db, hw, url, password, hash) == BadRequest(InvalidCredentialsMessage)
  {
  }

  /** A lookup of a URL never stored, with valid credentials: the handler as
      written answers "Invalid URL." and then reaches the 500 path, while the
      corrected `Get` answers once. */
  lemma LookupUnknownSendsTwice(db: Db, hw: string, url: string, password: string, hash: Hash)
    requires CredentialsValid(db.accounts, hw, password, hash)
    requires forall i :: 0 <= i < |db.passwords| ==> RecordKey(db.passwords[i]) != (hw, url)
    ensures LookupSendsAsWritten(db, hw, url, password, hash) == [BadRequest(InvalidUrlMessage), InternalError]
    ensures Get(db, hw, url, password, hash) == BadRequest(InvalidUrlMessage)
  {
  }
}

=== FILE: http.dfy ===
/** The responses the route handlers send, with the service's fixed messages. */
module Http {
  import opened Json
  import opened Store

  /** The body of a response: none, a text message, or a stored JSON blob. */
  datatype Payload = NoBody | Text(message: string) | Body(value: Json)

  /** A status code and a body, as passed to `res.status(code).send(body)`. */
  datatype Response = Response(status: int, payload: Payload)

  /** What a handler yields: the first response it sends and the store afterwards. */
  datatype Step = Step(response: Response, db: Db)

  const BadHardwareIdMessage := "Your hardware ID is not in a valid format."
  const DuplicateAccountMessage := "An account already exists for this hardware ID."
  const InvalidCredentialsMessage := "Invalid credentials."
  const InvalidUrlMessage := "Invalid URL."
  const InternalErrorMessage := "Internal server error.  Try again in a minute."

  /** A 200 response. */
  function Ok(p: Payload): Response {
    Response(200, p)
  }

  /** A 400 response carrying a message. */
  function BadRequest(message: string): Response {
    Response(400, Text(message))
  }

  /** The 500 response of the handlers' `.catch` continuations. */
  const InternalError := Response(500, Text(InternalErrorMessage))
}

=== FILE: json.dfy ===
/**
 This module models the parsed JSON values that the JSON body parser hands to a
 route handler, together with the two ECMAScript operations the service applies
 to them: `typeof` and property lookup.
 */
module Json {
  import opened Wrappers

  /** A JSON value. Numbers are integers in this model (see README). */
  datatype Json =
    | JNull
    | JBool(b: bool)
    | JNumber(n: int)
    | JString(s: string)
    | JArray(items: seq<Json>)
    | JObject(members: seq<Member>)

  /** One own enumerable property of an object. An object is the sequence of its
      members in `for ... in` enumeration order. */
  datatype Member = Member(key: string, value: Json)

  /** ECMAScript `typeof` on a JSON value: `null` and arrays are both "object". */
  function TypeOf(v: Json): (t: string)
    ensures t == "object" <==> v.JNull? || v.JArray? || v.JObject?
    ensures t == "string" <==> v.JString?
    ensures t == "number" <==> v.JNumber?
    ensures t == "boolean" <==> v.JBool?
  {
    match v
    case JNull => "object"
    case JBool(_) => "boolean"
    case JNumber(_) => "number"
    case JString(_) => "string"
    case JArray(_) => "object"
    case JObject(_) => "object"
  }

  /** The JavaScript `k in obj` test on an object's own members. */
  predicate HasKey(obj: seq<Member>, k: string) {
    exists i :: 0 <= i < |obj| && obj[i].key == k
  }

  /** Index of the first element of `s` whose key is `k`, or `|s|` when there
      is none: the lookup order of an object's properties. */
  function FirstIndex<T>(s: seq<T>, key: T -> string, k: string): (i: nat)
    ensures i <= |s|
    ensures forall l :: 0 <= l < i ==> key(s[l]) != k
    ensures i < |s| ==> key(s[i]) == k
  {
    if s == [] then 0
    else if key(s[0]) == k then 0
    else 1 + FirstIndex(s[1..], key, k)
  }

  /** The key of an object member. */
  function MemberKey(m: Member): string {
    m.key
  }

  /** Index of the first member named `k`, or `|obj|` when there is none. */
  function IndexOf(obj: seq<Member>, k: string): nat {
    FirstIndex(obj, MemberKey, k)
  }

  /** The property access `obj[k]`: the value of the member named `k`, if any. */
  function Lookup(obj: seq<Member>, k: string): (r: Option<Json>)
    ensures r.Some? <==> HasKey(obj, k)
    ensures r.Some? ==> exists i :: 0 <= i < |obj| && obj[i] == Member(k, r.value)
  {
    var i := IndexOf(obj, k);
    if i < |obj| then Some(obj[i].value) else None
  }

  /** The string value of field `k`, or "" when it is absent or not a string. The
      handlers read fields only after validation has made them strings. */
  function StringField(obj: seq<Member>, k: string): string {
    match Lookup(obj, k)
    case Some(JString(s)) => s
    case _ => ""
  }

  /** The value of field `k`, or `null` when it is absent. */
  function Field(obj: seq<Member>, k: string): Json {
    match Lookup(obj, k)
    case Some(v) => v
    case None => JNull
  }
}

=== FILE: records.dfy ===
/**
 This module models the record side of the service: the authenticated upsert
 behind `PUT /:hardware_id/:url` and the authenticated lookup behind
 `POST /:hardware_id/:url`, after their request bodies have been validated.
 */
module Records {
  import opened Json
  import opened Store
  import opened Http
  import opened Accounts

  /** Store `info` for `url` under account `hw`, guarded by the credential check. */
  function Put(db: Db, hw: string, url: string, password: string, info: Json, hash: Hash): (r: Step)
    ensures r.db.accounts == db.accounts
    ensures r.response.status == 200 <==> CredentialsValid(db.accounts, hw, password, hash)
    ensures !CredentialsValid(db.accounts, hw, password, hash) ==>
              r == Step(BadRequest(InvalidCredentialsMessage), db)
    ensures CredentialsValid(db.accounts, hw, password, hash) ==>
              r.response == Ok(NoBody) && |r.db.passwords| <= |db.passwords| + 1
    ensures Unique(db.passwords, RecordKey) ==> Unique(r.db.passwords, RecordKey)
  {
    if !CredentialsValid(db.accounts, hw, password, hash) then
      Step(BadRequest(InvalidCredentialsMessage), db)
    else
      UpsertKeepsUnique(db.passwords, hw, url, info);
      Step(Ok(NoBody), db.(passwords := Upsert(db.passwords, hw, url, info)))
  }

  /** Read the blob stored for `url` under account `hw`, guarded by the
      credential check; a lookup that does not find exactly one record fails. */
  function Get(db: Db, hw: string, url: string, password: string, hash: Hash): (r: Response)
    ensures !CredentialsValid(db.accounts, hw, password, hash) ==> r == BadRequest(InvalidCredentialsMessage)
    ensures CredentialsValid(db.accounts, hw, password, hash) ==>
              (r.status == 200 <==> |Select(db.passwords, RecordKey, (hw, url))| == 1)
    ensures (CredentialsValid(db.accounts, hw, password, hash)
             && |Select(db.passwords, RecordKey, (hw, url))| != 1) ==> r == BadRequest(InvalidUrlMessage)
    ensures r.status == 200 ==>
              exists rec :: rec in db.passwords && RecordKey(rec) == (hw, url) && r == Ok(Body(rec.info))
  {
    if !CredentialsValid(db.accounts, hw, password, hash) then
      BadRequest(InvalidCredentialsMessage)
    else
      var data := Select(db.passwords, RecordKey, (hw, url));
      if |data| != 1 then BadRequest(InvalidUrlMessage)
      else
        assert data[0] in data;
        Ok(Body(data[0].info))
  }
}

/** Properties of the record operations over a whole store. */
module RecordFacts {
  import opened Json
  import opened Store
  import opened Http
  import opened Accounts
  import opened Records

  /** With at most one record per key, a lookup with valid credentials succeeds
      exactly when a record for the key exists, and returns that record's blob. */
  lemma GetFindsStoredRecord(db: Db, hw: string, url: string, password: string, hash: Hash, i: nat)
    requires Unique(db.passwords, RecordKey)
    requires CredentialsValid(db.accounts, hw, password, hash)
    requires i < |db.passwords| && RecordKey(db.passwords[i]) == (hw, url)
    ensures Get(db, hw, url, password, hash) == Ok(Body(db.passwords[i].info))
  {
    SelectUnique(db.passwords, RecordKey, i);
  }

  /** A lookup for a key no record has fails with "Invalid URL." once the
      credentials pass, and never yields a blob. */
  lemma GetUnknownIsInvalidUrl(db: Db, hw: string, url: string, password: string, hash: Hash)
    requires CredentialsValid(db.accounts, hw, password, hash)
    requires forall i :: 0 <= i < |db.passwords| ==> RecordKey(db.passwords[i]) != (hw, url)
    ensures Get(db, hw, url, password, hash) == BadRequest(InvalidUrlMessage)
  {
  }

  /** A stored record reads back as the last value put. */
  lemma PutThenGet(db: Db, hw: string, url: string, password: string, info: Json, hash: Hash)
    requires Unique(db.passwords, RecordKey)
    requires Put(db, hw, url, password, info, hash).response.status == 200
    ensures Get(Put(db, hw, url, password, info, hash).db, hw, url, password, hash) == Ok(Body(info))
  {
    UpsertReadBack(db.passwords, hw, url, info);
    var recs := Put(db, hw, url, password, info, hash).db.passwords;
    assert Select(recs, RecordKey, (hw, url))[0].info == info;
  }

  /** A second put replaces the blob of the first rather than merging with it. */
  lemma PutReplaces(db: Db, hw: string, url: string, password: string, first: Json, second: Json, hash: Hash)
    requires Unique(db.passwords, RecordKey)
    requires Put(db, hw, url, password, first, hash).response.status == 200
    ensures var db1 := Put(db, hw, url, password, first, hash).db;
            Get(Put(db1, hw, url, password, second, hash).db, hw, url, password, hash) == Ok(Body(second))
  {
    var db1 := Put(db, hw, url, password, first, hash).db;
    PutThenGet(db1, hw, url, password, second, hash);
  }

  /** A put changes nothing any other lookup can see. */
  lemma PutFrame(db: Db, hw: string, url: string, password: string, info: Json, hash: Hash,
                 hw': string, url': string, password': string)
    requires (hw', url') != (hw, url)
    ensures Get(Put(db, hw, url, password, info, hash).db, hw', url', password', hash)
              == Get(db, hw', url', password', hash)
  {
    UpsertFrame(db.passwords, hw, url, info, (hw', url'));
  }
}

=== FILE: routes.dfy ===
/**
 This module models the three route handlers as transitions of the store: each
 validates its request body against its schema, then runs the account or record
 operation, and yields the first response it sends.
 */
module Routes {
  import opened Json
  import opened Validation
  import opened ValidationFacts
  import opened Store
  import opened Http
  import opened Accounts
  import opened Records

  /** Body schema of `POST /account/new`. */
  const NewAccountSchema: Schema := [Entry("hardware_id", Plain("string")), Entry("password", Plain("string"))]

  /** Body schema of `PUT /:hardware_id/:url`. */
  const PutSchema: Schema := [Entry("password", Plain("string")), Entry("store", Plain("object"))]

  /** Body schema of `POST /:hardware_id/:url`. */
  const LookupSchema: Schema := [Entry("password", Plain("string"))]

  /** The store invariant: at most one account per hardware ID and at most one
      record per (hardware ID, URL). */
  ghost predicate Consistent(db: Db) {
    Unique(db.accounts, AccountKey) && Unique(db.passwords, RecordKey)
  }

  /** A validated body's string field `k`. */
  predicate HasString(body: seq<Member>, k: string) {
    Lookup(body, k).Some? && Lookup(body, k).value.JString?
  }

  /** `POST /account/new` with the given body; `salt` is the freshly generated salt. */
  function NewAccount(db: Db, body: seq<Member>, salt: string, hash: Hash): (r: Step)
    ensures ArgCheck(body, NewAccountSchema).Invalid? ==>
              r == Step(BadRequest(ArgCheck(body, NewAccountSchema).error), db)
    ensures ArgCheck(body, NewAccountSchema).Valid? ==>
              && HasString(body, "hardware_id") && HasString(body, "password")
              && r == Register(db, Lookup(body, "hardware_id").value.s, Lookup(body, "password").value.s, salt, hash)
    ensures r.db.passwords == db.passwords
    ensures Consistent(db) ==> Consistent(r.db)
  {
    var check := ArgCheck(body, NewAccountSchema);
    if check.Invalid? then Step(BadRequest(check.error), db)
    else
      ValidHasDeclaredField(body, NewAccountSchema, "hardware_id", "string");
      ValidHasDeclaredField(body, NewAccountSchema, "password", "string");
      Register(db, StringField(body, "hardware_id"), StringField(body, "password"), salt, hash)
  }

  /** `PUT /:hardware_id/:url` with the given body. */
  function PutRoute(db: Db, hw: string, url: string, body: seq<Member>, hash: Hash): (r: Step)
    ensures ArgCheck(body, PutSchema).Invalid? ==>
              r == Step(BadRequest(ArgCheck(body, PutSchema).error), db)
    ensures ArgCheck(body, PutSchema).Valid? ==>
              && HasString(body, "password")
              && Lookup(body, "store").Some? && TypeOf(Lookup(body, "store").value) == "object"
              && r == Put(db, hw, url, Lookup(body, "password").value.s, Lookup(body, "store").value, hash)
    ensures r.db.accounts == db.accounts
    ensures Consistent(db) ==> Consistent(r.db)
  {
    var check := ArgCheck(body, PutSchema);
    if check.Invalid? then Step(BadRequest(check.error), db)
    else
      ValidHasDeclaredField(body, PutSchema, "password", "string");
      ValidHasDeclaredField(body, PutSchema, "store", "object");
      Put(db, hw, url, StringField(body, "password"), Field(body, "store"), hash)
  }

  /** `POST /:hardware_id/:url` with the given body; a lookup leaves the store as it is. */
  function LookupRoute(db: Db, hw: string, url: string, body: seq<Member>, hash: Hash): (r: Response)
    ensures ArgCheck(body, LookupSchema).Invalid? ==> r == BadRequest(ArgCheck(body, LookupSchema).error)
    ensures ArgCheck(body, LookupSchema).Valid? ==>
              HasString(body, "password") && r == Get(db, hw, url, Lookup(body, "password").value.s, hash)
  {
    var check := ArgCheck(body, LookupSchema);
    if check.Invalid? then BadRequest(check.error)
    else
      ValidHasDeclaredField(body, LookupSchema, "password", "string");
      Get(db, hw, url, StringField(body, "password"), hash)
  }

  /** One inbound request. A registration carries the salt generated for it. */
  datatype Request =
    | NewAccountRequest(body: seq<Member>, salt: string)
    | PutRequest(hw: string, url: string, body: seq<Member>)
    | LookupRequest(hw: string, url: string, body: seq<Member>)

  /** Dispatch one request to its handler. */
  function Handle(db: Db, req: Request, hash: Hash): (r: Step)
    ensures Consistent(db) ==> Consistent(r.db)
    ensures req.LookupRequest? ==> r.db == db
    ensures req.NewAccountRequest? ==> r.db.passwords == db.passwords
    ensures req.PutRequest? ==> r.db.accounts == db.accounts
  {
    match req
    case NewAccountRequest(body, salt) => NewAccount(db, body, salt, hash)
    case PutRequest(hw, url, body) => PutRoute(db, hw, url, body, hash)
    case LookupRequest(hw, url, body) => Step(LookupRoute(db, hw, url, body, hash), db)
  }

  /** The store after handling `reqs` one after another. */
  function Run(db: Db, reqs: seq<Request>, hash: Hash): Db
    decreases |reqs|
  {
    if reqs == [] then db else Run(Handle(db, reqs[0], hash).db, reqs[1..], hash)
  }

  /** Every sequence of requests keeps at most one account per hardware ID and
      at most one record per (hardware ID, URL). */
  lemma {:induction false} RunKeepsConsistent(db: Db, reqs: seq<Request>, hash: Hash)
    requires Consistent(db)
    ensures Consistent(Run(db, reqs, hash))
    decreases |reqs|
  {
    if reqs != [] {
      RunKeepsConsistent(Handle(db, reqs[0], hash).db, reqs[1..], hash);
    }
  }

  /** Accounts are never removed or changed: a request sequence only appends. */
  lemma {:induction false} RunOnlyAddsAccounts(db: Db, reqs: seq<Request>, hash: Hash)
    ensures |db.accounts| <= |Run(db, reqs, hash).accounts|
    ensures Run(db, reqs, hash).accounts[..|db.accounts|] == db.accounts
    decreases |reqs|
  {
    if reqs != [] {
      var db1 := Handle(db, reqs[0], hash).db;
      assert db1.accounts[..|db.accounts|] == db.accounts;
      RunOnlyAddsAccounts(db1, reqs[1..], hash);
      var accounts := Run(db, reqs, hash).accounts;
      assert accounts[..|db.accounts|] == accounts[..|db1.accounts|][..|db.accounts|];
    }
  }
}

=== FILE: scenario.dfy ===
/** A worked session against an empty store, and validation of concrete bodies. */
module Scenario {
  import opened Json
  import opened Validation
  import opened Store
  import opened Http
  import opened Accounts
  import opened Routes
  import opened Wrappers

  const Blob := JObject([Member("k", JString("v"))])
  const RegisterBody := [Member("hardware_id", JString("dev1")), Member("password", JString("pw"))]
  const PutBody := [Member("password", JString("pw")), Member("store", Blob)]

  /** The body of a lookup with password `pw`. */
  function LookupBody(pw: string): seq<Member> {
    [Member("password", JString(pw))]
  }

  /** The store once "dev1" has registered with password "pw" and `salt`. */
  function AfterRegister(salt: string, hash: Hash): Db {
    Db([Account("dev1", SaltHash(hash, "pw", salt), salt)], [])
  }

  /** Registering "dev1" in an empty store succeeds and creates its account. */
  lemma SessionRegisters(salt: string, hash: Hash)
    ensures NewAccount(Db([], []), RegisterBody, salt, hash) == Step(Ok(NoBody), AfterRegister(salt, hash))
  {
    WellFormedBodies();
    assert Lookup(RegisterBody, "hardware_id") == Some(JString("dev1"));
    assert Lookup(RegisterBody, "password") == Some(JString("pw"));
    assert SingleLine("dev1");
    assert Register(Db([], []), "dev1", "pw", salt, hash) == Step(Ok(NoBody), AfterRegister(salt, hash));
  }

  /** Storing the blob for "site1" with the right password succeeds. */
  lemma SessionStores(salt: string, hash: Hash)
    ensures PutRoute(AfterRegister(salt, hash), "dev1", "site1", PutBody, hash)
              == Step(Ok(NoBody), AfterRegister(salt, hash).(passwords := [Record("dev1", "site1", Blob)]))
  {
    WellFormedBodies();
    assert Lookup(PutBody, "password") == Some(JString("pw"));
    assert Lookup(PutBody, "store") == Some(Blob);
    var accounts := AfterRegister(salt, hash).accounts;
    assert accounts[1..] == [];
    assert Select(accounts, AccountKey, "dev1") == accounts;
  }

  /** Looking the blob up returns it with the right password and is refused
      with a wrong one. */
  lemma SessionLooksUp(salt: string, hash: Hash)
    requires Injective(hash)
    ensures var db := AfterRegister(salt, hash).(passwords := [Record("dev1", "site1", Blob)]);
            && LookupRoute(db, "dev1", "site1", LookupBody("pw"), hash) == Ok(Body(Blob))
            && LookupRoute(db, "dev1", "site1", LookupBody("wrong"), hash) == BadRequest(InvalidCredentialsMessage)
  {
  }

  /** Register "dev1", store `{k: "v"}` for "site1", read it back with the right
      password, and be refused with a wrong one. */
  lemma EndToEnd(salt: string, hash: Hash)
    requires Injective(hash)
    ensures var s1 := NewAccount(Db([], []), RegisterBody, salt, hash);
            var s2 := PutRoute(s1.db, "dev1", "site1", PutBody, hash);
            && s1.response == Ok(NoBody)
            && s2.response == Ok(NoBody)
            && LookupRoute(s2.db, "dev1", "site1", LookupBody("pw"), hash) == Ok(Body(Blob))
            && LookupRoute(s2.db, "dev1", "site1", LookupBody("wrong"), hash) == BadRequest(InvalidCredentialsMessage)
  {
    SessionRegisters(salt, hash);
    SessionStores(salt, hash);
    SessionLooksUp(salt, hash);
  }

  /** The bodies of the session above pass their schemas. */
  lemma WellFormedBodies()
    ensures ArgCheck(RegisterBody, NewAccountSchema).Valid?
    ensures ArgCheck(PutBody, PutSchema).Valid?
    ensures forall pw :: ArgCheck(LookupBody(pw), LookupSchema).Valid?
  {
    var a1 := RegisterBody;
    assert SpecFor(NewAccountSchema, "hardware_id") == Some(Plain("string"));
    assert SpecFor(NewAccountSchema, "password") == Some(Plain("string"));
    assert ArgViolation(a1, NewAccountSchema, 0).None?;
    assert ArgViolation(a1, NewAccountSchema, 1).None?;
    assert a1[0].key == "hardware_id" && a1[1].key == "password";
    assert !MissingAt(a1, NewAccountSchema, 0);
    assert !MissingAt(a1, NewAccountSchema, 1);
    var a2 := PutBody;
    assert SpecFor(PutSchema, "password") == Some(Plain("string"));
    assert SpecFor(PutSchema, "store") == Some(Plain("object"));
    assert ArgViolation(a2, PutSchema, 0).None?;
    assert ArgViolation(a2, PutSchema, 1).None?;
    assert a2[0].key == "password" && a2[1].key == "store";
    assert !MissingAt(a2, PutSchema, 0);
    assert !MissingAt(a2, PutSchema, 1);
    forall pw ensures ArgCheck(LookupBody(pw), LookupSchema).Valid? {
      var a3 := LookupBody(pw);
      assert SpecFor(LookupSchema, "password") == Some(Plain("string"));
      assert ArgViolation(a3, LookupSchema, 0).None?;
      assert a3[0].key == "password";
      assert !MissingAt(a3, LookupSchema, 0);
    }
  }

  /** The first violation wins: an extra field is reported even though the
      required password is also missing. */
  lemma ExtraBeforeMissing()
    ensures ArgCheck([Member("hardware_id", JString("dev1")), Member("pin", JNumber(1))], NewAccountSchema)
              == Invalid(Message(ExtraField("pin")))
  {
  }

  /** A body with well-formed fields but no password is reported as missing it. */
  lemma MissingPassword()
    ensures ArgCheck([Member("hardware_id", JString("dev1"))], NewAccountSchema)
              == Invalid(Message(MissingField("password")))
  {
  }

  /** `null` and arrays satisfy the declared type "object", so a put body may
      store either. */
  lemma NullAndArrayAreObjects(store: Json)
    requires store.JNull? || store.JArray?
    ensures ArgCheck([Member("password", JString("pw")), Member("store", store)], PutSchema) == Valid
  {
    var args := [Member("password", JString("pw")), Member("store", store)];
    assert SpecFor(PutSchema, "password") == Some(Plain("string"));
    assert SpecFor(PutSchema, "store") == Some(Plain("object"));
    assert ArgViolation(args, PutSchema, 0).None?;
    assert ArgViolation(args, PutSchema, 1).None?;
    assert args[0].key == "password" && args[1].key == "store";
    assert !MissingAt(args, PutSchema, 0);
    assert !MissingAt(args, PutSchema, 1);
  }
}

=== FILE: store.dfy ===
/**
 This module models the document store the service talks to through its `db`
 collaborator: the two collections `accounts` and `passwords`, and the three
 operations the handlers use on them, `query` (an equality filter), `insert`
 and `update` with `upsert: true`. Collections are sequences of documents in
 insertion order.
 */
module Store {
  import opened Json

  /** A document of `accounts`: the hardware ID, the salted password hash (hex) and its salt. */
  datatype Account = Account(hardwareId: string, password: string, salt: string)

  /** A document of `passwords`: the blob `info` stored for one URL of one account. */
  datatype Record = Record(hardwareId: string, url: string, info: Json)

  /** Both collections. */
  datatype Db = Db(accounts: seq<Account>, passwords: seq<Record>)

  /** The field an account query filters on. */
  function AccountKey(a: Account): string {
    a.hardwareId
  }

  /** The fields a record query or update filters on. */
  function RecordKey(r: Record): (string, string) {
    (r.hardwareId, r.url)
  }

  /** `query(collection, filter)`: the documents whose key equals `k`, in collection order. */
  function Select<T(==,!new), K(==)>(docs: seq<T>, key: T -> K, k: K): (r: seq<T>)
    ensures |r| <= |docs|
    ensures forall d :: d in r <==> d in docs && key(d) == k
    ensures forall i :: 0 <= i < |r| ==> key(r[i]) == k
    // every match is returned as often as it is stored, so `|r|` counts the matches
    ensures forall d {:trigger multiset(r)[d]} :: multiset(r)[d] == (if key(d) == k then multiset(docs)[d] else 0)
  {
    if docs == [] then []
    else
      assert docs == [docs[0]] + docs[1..];
      if key(docs[0]) == k then [docs[0]] + Select(docs[1..], key, k)
      else Select(docs[1..], key, k)
  }

  /** Two documents with the key make a query return at least two results. */
  lemma {:induction false} SelectTwo<T(!new), K>(docs: seq<T>, key: T -> K, k: K, i: nat, j: nat)
    requires i < j < |docs| && key(docs[i]) == k && key(docs[j]) == k
    ensures |Select(docs, key, k)| >= 2
  {
    assert docs[1..][j - 1] == docs[j];
    if i == 0 {
      assert docs[j] in Select(docs[1..], key, k);
    } else {
      SelectTwo(docs[1..], key, k, i - 1, j - 1);
      assert docs[1..][i - 1] == docs[i];
    }
  }

  /** No two documents of the collection share a key. */
  ghost predicate Unique<T, K>(docs: seq<T>, key: T -> K) {
    forall i, j :: 0 <= i < j < |docs| ==> key(docs[i]) != key(docs[j])
  }

  /** A query for a key no document has finds nothing. */
  lemma {:induction false} SelectNone<T(!new), K>(docs: seq<T>, key: T -> K, k: K)
    requires forall l :: 0 <= l < |docs| ==> key(docs[l]) != k
    ensures Select(docs, key, k) == []
  {
    if docs != [] {
      SelectNone(docs[1..], key, k);
    }
  }

  /** In a collection with unique keys, a query for a stored document's key
      finds exactly that document. */
  lemma {:induction false} SelectUnique<T(!new), K>(docs: seq<T>, key: T -> K, i: nat)
    requires Unique(docs, key) && i < |docs|
    ensures Select(docs, key, key(docs[i])) == [docs[i]]
  {
    if i == 0 {
      assert forall l :: 0 <= l < |docs[1..]| ==> key(docs[1..][l]) != key(docs[0]) by {
        forall l | 0 <= l < |docs[1..]| ensures key(docs[1..][l]) != key(docs[0]) {
          assert docs[1..][l] == docs[l + 1];
        }
      }
      SelectNone(docs[1..], key, key(docs[0]));
    } else {
      assert Unique(docs[1..], key) by {
        forall a, b | 0 <= a < b < |docs[1..]| ensures key(docs[1..][a]) != key(docs[1..][b]) {
          assert docs[1..][a] == docs[a + 1] && docs[1..][b] == docs[b + 1];
        }
      }
      SelectUnique(docs[1..], key, i - 1);
      assert docs[1..][i - 1] == docs[i];
    }
  }

  /** `insert(collection, document)`: the document is appended. */
  function Insert<T>(docs: seq<T>, d: T): (r: seq<T>)
    ensures |r| == |docs| + 1 && r[|docs|] == d
    ensures forall i :: 0 <= i < |docs| ==> r[i] == docs[i]
  {
    docs + [d]
  }

  /** `update(passwords, {hardware_id, url}, {$set: {info}}, {upsert: true})`:
      the first record with that key gets `info` replaced (not merged);
      when there is none, a new record is appended. */
  function Upsert(recs: seq<Record>, hw: string, url: string, info: Json): (r: seq<Record>)
    ensures |recs| <= |r| <= |recs| + 1
    ensures forall i :: 0 <= i < |recs| ==> RecordKey(r[i]) == RecordKey(recs[i])
    ensures forall i :: 0 <= i < |recs| && RecordKey(recs[i]) != (hw, url) ==> r[i] == recs[i]
    ensures |r| == |recs| + 1 ==> r[|recs|] == Record(hw, url, info)
    ensures Select(r, RecordKey, (hw, url)) != []
    ensures Select(r, RecordKey, (hw, url))[0] == Record(hw, url, info)
    ensures |r| == |recs| + 1 ==> forall i :: 0 <= i < |recs| ==> RecordKey(recs[i]) != (hw, url)
  {
    if recs == [] then
      var r := [Record(hw, url, info)];
      assert r[1..] == [];
      r
    else if RecordKey(recs[0]) == (hw, url) then
      var r := [recs[0].(info := info)] + recs[1..];
      assert r[1..] == recs[1..];
      r
    else
      var r := [recs[0]] + Upsert(recs[1..], hw, url, info);
      assert r[1..] == Upsert(recs[1..], hw, url, info);
      r
  }

  /** An upsert never creates a second record for a key. */
  lemma UpsertKeepsUnique(recs: seq<Record>, hw: string, url: string, info: Json)
    ensures Unique(recs, RecordKey) ==> Unique(Upsert(recs, hw, url, info), RecordKey)
  {
  }

  /** In a collection with unique keys, a query finds at most one document. */
  lemma SelectAtMostOne<T(!new), K>(docs: seq<T>, key: T -> K, k: K)
    requires Unique(docs, key)
    ensures |Select(docs, key, k)| <= 1
  {
    var r := Select(docs, key, k);
    if r != [] {
      assert r[0] in docs;
      var i :| 0 <= i < |docs| && docs[i] == r[0];
      SelectUnique(docs, key, i);
    }
  }

  /** After an upsert, the record for its key reads back as exactly the value put. */
  lemma UpsertReadBack(recs: seq<Record>, hw: string, url: string, info: Json)
    requires Unique(recs, RecordKey)
    ensures Select(Upsert(recs, hw, url, info), RecordKey, (hw, url)) == [Record(hw, url, info)]
  {
    UpsertKeepsUnique(recs, hw, url, info);
    SelectAtMostOne(Upsert(recs, hw, url, info), RecordKey, (hw, url));
  }

  /** An upsert leaves the query result for every other key unchanged. */
  lemma {:induction false} UpsertFrame(recs: seq<Record>, hw: string, url: string, info: Json, k: (string, string))
    requires k != (hw, url)
    ensures Select(Upsert(recs, hw, url, info), RecordKey, k) == Select(recs, RecordKey, k)
  {
    var r := Upsert(recs, hw, url, info);
    if recs == [] {
      assert r[1..] == [];
    } else if RecordKey(recs[0]) == (hw, url) {
      assert r[1..] == recs[1..];
    } else {
      assert r[1..] == Upsert(recs[1..], hw, url, info);
      UpsertFrame(recs[1..], hw, url, info, k);
    }
  }
}

=== FILE: validation.dfy ===
/**
 This module models `argCheck`, the request-schema validator every route runs
 before touching storage. A schema maps field names to either a plain type name
 (`"string"`) or a descriptor `{type, optional}`. Validation makes one pass over
 the request's fields (extra field, wrong type) and then one pass over the
 schema's fields (missing field); the first violation found is reported.
 */
module Validation {
  import opened Wrappers
  import opened Json

  /** A schema value: a type name, or a descriptor object `{type, optional}`. */
  datatype FieldSpec = Plain(typeName: string) | Descriptor(typeName: string, optional: bool)

  /** One field of a schema object literal. */
  datatype Entry = Entry(key: string, spec: FieldSpec)

  /** A schema, in the enumeration order of its object literal. */
  type Schema = seq<Entry>

  /** The three ways a request body can fail its schema. */
  datatype Violation = ExtraField(field: string) | WrongType(field: string) | MissingField(field: string)

  /** The validator's result: `{valid: true}` carries no error field. */
  datatype Check = Valid | Invalid(error: string)

  const ExtraPrefix := "Your request has an extra field \""
  const ExtraSuffix := "\" and can't be processed."
  const WrongTypePrefix := "Your request's \""
  const WrongTypeSuffix := "\" field is of the wrong type and can't be processed."
  const MissingPrefix := "Your request is missing the field \""
  const MissingSuffix := "\" and can't be processed."

  /** The human-readable message reported for a violation; it names the field. */
  function Message(v: Violation): string {
    match v
    case ExtraField(k) => ExtraPrefix + k + ExtraSuffix
    case WrongType(k) => WrongTypePrefix + k + WrongTypeSuffix
    case MissingField(k) => MissingPrefix + k + MissingSuffix
  }

  /** The key of a schema entry. */
  function EntryKey(e: Entry): string {
    e.key
  }

  /** The lookup `type[k]`. */
  function SpecFor(schema: Schema, k: string): (r: Option<FieldSpec>)
    ensures r.Some? <==> exists j :: 0 <= j < |schema| && schema[j].key == k
    ensures r.Some? ==> exists j :: 0 <= j < |schema| && schema[j] == Entry(k, r.value)
  {
    var i := FirstIndex(schema, EntryKey, k);
    if i < |schema| then Some(schema[i].spec) else None
  }

  /** JavaScript truthiness of `type[k]`: undefined and the empty string are falsy,
      a non-empty type name and a descriptor object are truthy. */
  predicate Truthy(s: Option<FieldSpec>) {
    match s
    case None => false
    case Some(Plain(t)) => t != ""
    case Some(Descriptor(_, _)) => true
  }

  /** `typeof type[k] == "object" && type[k].optional` */
  predicate IsOptional(s: Option<FieldSpec>) {
    s.Some? && s.value.Descriptor? && s.value.optional
  }

  /** The type a field must have: the descriptor's `.type`, or the plain type name. */
  function DeclaredType(spec: FieldSpec): string {
    match spec
    case Descriptor(t, _) => t
    case Plain(t) => t
  }

  /** What the first pass finds wrong with the request's `i`-th field, if anything. */
  function ArgViolation(args: seq<Member>, schema: Schema, i: nat): (r: Option<Violation>)
    requires i < |args|
    ensures r.Some? ==> r.value.field == args[i].key && !r.value.MissingField?
    ensures r == Some(ExtraField(args[i].key)) <==> !Truthy(SpecFor(schema, args[i].key))
    ensures r.None? <==> Truthy(SpecFor(schema, args[i].key))
                         && TypeOf(args[i].value) == DeclaredType(SpecFor(schema, args[i].key).value)
  {
    var k := args[i].key;
    var s := SpecFor(schema, k);
    if !Truthy(s) then Some(ExtraField(k))
    else if TypeOf(args[i].value) != DeclaredType(s.value) then Some(WrongType(k))
    else None
  }

  /** The second pass's test on the schema's `j`-th field: absent and not optional. */
  predicate MissingAt(args: seq<Member>, schema: Schema, j: nat): (missing: bool)
    requires j < |schema|
    ensures missing ==> Lookup(args, schema[j].key).None?
    ensures IsOptional(SpecFor(schema, schema[j].key)) ==> !missing
    ensures (Lookup(args, schema[j].key).None? && !IsOptional(SpecFor(schema, schema[j].key))) ==> missing
  {
    var k := schema[j].key;
    !HasKey(args, k) && !IsOptional(SpecFor(schema, k))
  }

  /** The first pass: index of the first field at or after `from` with a
      violation, or `|args|` when there is none. */
  function FirstArgViolation(args: seq<Member>, schema: Schema, from: nat): (i: nat)
    requires from <= |args|
    ensures from <= i <= |args|
    ensures forall l :: from <= l < i ==> ArgViolation(args, schema, l).None?
    ensures i < |args| ==> ArgViolation(args, schema, i).Some?
    decreases |args| - from
  {
    if from == |args| then from
    else if ArgViolation(args, schema, from).Some? then from
    else FirstArgViolation(args, schema, from + 1)
  }

  /** The second pass: index of the first schema field at or after `from` that is
      missing, or `|schema|` when there is none. */
  function FirstMissing(args: seq<Member>, schema: Schema, from: nat): (j: nat)
    requires from <= |schema|
    ensures from <= j <= |schema|
    ensures forall l :: from <= l < j ==> !MissingAt(args, schema, l)
    ensures j < |schema| ==> MissingAt(args, schema, j)
    decreases |schema| - from
  {
    if from == |schema| then from
    else if MissingAt(args, schema, from) then from
    else FirstMissing(args, schema, from + 1)
  }

  /** A declarative description of each violation, independent of pass order. */
  ghost predicate Violated(args: seq<Member>, schema: Schema, v: Violation) {
    match v
    case ExtraField(k) =>
      && (exists i :: 0 <= i < |args| && args[i].key == k)
      && !Truthy(SpecFor(schema, k))
    case WrongType(k) =>
      && Truthy(SpecFor(schema, k))
      && exists i :: 0 <= i < |args| && args[i].key == k
                    && TypeOf(args[i].value) != DeclaredType(SpecFor(schema, k).value)
    case MissingField(k) =>
      && (exists j :: 0 <= j < |schema| && schema[j].key == k)
      && !HasKey(args, k)
      && !IsOptional(SpecFor(schema, k))
  }

  /** The request satisfies its schema: no field is extra or mistyped and no
      required field is missing. */
  ghost predicate Conforms(args: seq<Member>, schema: Schema) {
    && (forall i :: 0 <= i < |args| ==> ArgViolation(args, schema, i).None?)
    && (forall j :: 0 <= j < |schema| ==> !MissingAt(args, schema, j))
  }

  /** `argCheck(args, type)`. */
  function ArgCheck(args: seq<Member>, schema: Schema): (r: Check)
    ensures r.Valid? <==> Conforms(args, schema)
    ensures r.Invalid? ==> exists v :: r.error == Message(v) && Violated(args, schema, v)
  {
    var i := FirstArgViolation(args, schema, 0);
    if i < |args| then
      var v := ArgViolation(args, schema, i).value;
      assert Violated(args, schema, v);
      Invalid(Message(v))
    else
      var j := FirstMissing(args, schema, 0);
      if j < |schema| then
        var v := MissingField(schema[j].key);
        assert Violated(args, schema, v);
        Invalid(Message(v))
      else Valid
  }
}

/** Properties of `argCheck`, stated over the declarative description above. */
module ValidationFacts {
  import opened Wrappers
  import opened Json
  import opened Validation

  /** A message determines the violation it reports: the kind and the field. */
  lemma {:induction false} MessageInjective(v: Violation, w: Violation)
    ensures Message(v) == Message(w) ==> v == w
  {
    if Message(v) == Message(w) {
      var m := Message(v);
      // The three prefixes already differ at position 12 or 13.
      assert m[12] == (if v.WrongType? then '\'' else ' ');
      assert m[12] == (if w.WrongType? then '\'' else ' ');
      assert !v.WrongType? ==> m[13] == (if v.ExtraField? then 'h' else 'i');
      assert !w.WrongType? ==> m[13] == (if w.ExtraField? then 'h' else 'i');
      var p, s := Affixes(v).0, Affixes(v).1;
      assert m == p + v.field + s;
      assert m == p + w.field + s;
      assert |v.field| == |w.field|;
      assert v.field == m[|p|..|p| + |v.field|];
      assert w.field == m[|p|..|p| + |w.field|];
    }
  }

  /** The fixed text around the field name in a violation's message. */
  function Affixes(v: Violation): (string, string) {
    match v
    case ExtraField(_) => (ExtraPrefix, ExtraSuffix)
    case WrongType(_) => (WrongTypePrefix, WrongTypeSuffix)
    case MissingField(_) => (MissingPrefix, MissingSuffix)
  }

  /** An extra field found before any other field violation is the one reported,
      by name, even when required fields are also missing. */
  lemma ExtraFieldReported(args: seq<Member>, schema: Schema, i: nat)
    requires i < |args|
    requires !Truthy(SpecFor(schema, args[i].key))
    requires forall l :: 0 <= l < i ==> ArgViolation(args, schema, l).None?
    ensures ArgCheck(args, schema) == Invalid(Message(ExtraField(args[i].key)))
  {
    assert ArgViolation(args, schema, i) == Some(ExtraField(args[i].key));
    assert FirstArgViolation(args, schema, 0) == i;
  }

  /** A field whose `typeof` differs from the declared type, found before any
      other field violation, is the one reported, by name. */
  lemma WrongTypeReported(args: seq<Member>, schema: Schema, i: nat)
    requires i < |args|
    requires Truthy(SpecFor(schema, args[i].key))
    requires TypeOf(args[i].value) != DeclaredType(SpecFor(schema, args[i].key).value)
    requires forall l :: 0 <= l < i ==> ArgViolation(args, schema, l).None?
    ensures ArgCheck(args, schema) == Invalid(Message(WrongType(args[i].key)))
  {
    assert ArgViolation(args, schema, i) == Some(WrongType(args[i].key));
    assert FirstArgViolation(args, schema, 0) == i;
  }

  /** The pass over the request's fields runs first: when any field is extra or
      mistyped, the report is never a missing-field message. */
  lemma ArgPassComesFirst(args: seq<Member>, schema: Schema, i: nat)
    requires i < |args| && ArgViolation(args, schema, i).Some?
    ensures ArgCheck(args, schema).Invalid?
    ensures forall k :: ArgCheck(args, schema).error != Message(MissingField(k))
  {
    var f := FirstArgViolation(args, schema, 0);
    var v := ArgViolation(args, schema, f).value;
    assert ArgCheck(args, schema) == Invalid(Message(v));
    forall k ensures Message(v) != Message(MissingField(k)) {
      MessageInjective(v, MissingField(k));
    }
  }

  /** With every field well formed, the first required schema field absent from
      the request is reported, by name. */
  lemma MissingFieldReported(args: seq<Member>, schema: Schema, j: nat)
    requires forall i :: 0 <= i < |args| ==> ArgViolation(args, schema, i).None?
    requires j < |schema| && MissingAt(args, schema, j)
    requires forall l :: 0 <= l < j ==> !MissingAt(args, schema, l)
    ensures ArgCheck(args, schema) == Invalid(Message(MissingField(schema[j].key)))
  {
    assert FirstArgViolation(args, schema, 0) == |args|;
    assert FirstMissing(args, schema, 0) == j;
  }

  /** The validator accepts a request exactly when no violation, in the
      declarative sense, can be found in it. */
  lemma ArgCheckValidIff(args: seq<Member>, schema: Schema)
    ensures ArgCheck(args, schema).Valid? <==> forall v :: !Violated(args, schema, v)
  {
    forall v | Violated(args, schema, v) ensures !Conforms(args, schema) {
      match v
      case ExtraField(k) =>
        var i :| 0 <= i < |args| && args[i].key == k;
        assert ArgViolation(args, schema, i).Some?;
      case WrongType(k) =>
        var i :| 0 <= i < |args| && args[i].key == k
                 && TypeOf(args[i].value) != DeclaredType(SpecFor(schema, k).value);
        assert ArgViolation(args, schema, i).Some?;
      case MissingField(k) =>
        var j :| 0 <= j < |schema| && schema[j].key == k;
        assert MissingAt(args, schema, j);
    }
  }

  /** An optional descriptor field may be absent: it is never reported missing. */
  lemma OptionalNeverMissing(args: seq<Member>, schema: Schema, k: string)
    requires IsOptional(SpecFor(schema, k))
    ensures ArgCheck(args, schema) != Invalid(Message(MissingField(k)))
  {
    if ArgCheck(args, schema) == Invalid(Message(MissingField(k))) {
      var v :| ArgCheck(args, schema).error == Message(v) && Violated(args, schema, v);
      MessageInjective(v, MissingField(k));
    }
  }

  /** A request accepted against a schema that declares `k` with the non-empty
      plain type `t` carries a field `k` whose `typeof` is `t`. The route
      handlers rely on this to read their fields. */
  lemma ValidHasDeclaredField(args: seq<Member>, schema: Schema, k: string, t: string)
    requires ArgCheck(args, schema).Valid?
    requires SpecFor(schema, k) == Some(Plain(t)) && t != ""
    ensures Lookup(args, k).Some? && TypeOf(Lookup(args, k).value) == t
  {
    var j := FirstIndex(schema, EntryKey, k);
    assert !MissingAt(args, schema, j);
    var i := IndexOf(args, k);
    assert ArgViolation(args, schema, i).None?;
  }
}

=== FILE: wrappers.dfy ===
/** The optional-value type shared by the modules of this model. */
module Wrappers {

  /** A value that may be absent, like a JavaScript property lookup that yields `undefined`. */
  datatype Option<+T> = None | Some(value: T)
}
